=== FILE: README.md ===
# wysi-html: a Dafny model of the editor's core

wysi-html is a desktop editor with three buffers: HTML markup, CSS styles and
JavaScript. It composes them into one HTML document and shows a live preview.
This project models the logic of `app.py` that is not Qt wiring:

- **Document composer** (`HTMLEditor.generate_html`). `Composer.Compose` is a
  pure function of the three buffers.
  - *Implicit mode:* if the markup contains neither `id="custom-css"` nor
    `id="custom-js"`, the buffers go verbatim into a fixed HTML5 skeleton.
  - *Explicit mode:* otherwise the markup is kept. Two Python `str.replace`
    passes insert a newline and the styles after every
    `<style id="custom-css">`, then a newline and the script after every
    `<script id="custom-js">`.
  - `Text.ReplaceAll` models `str.replace` as a left-to-right scan.
    `Text.Split`/`Text.Join` (Python's `str.split`/`str.join`) give an
    independent definition of the same result, and lemmas connect the two.
- **Refresh scheduler** (`on_text_changed`, `toggle_auto_refresh`, the
  single-shot timer). An edit marks the session modified and (re)arms the
  timer while auto-refresh is on. The timer firing calls `update_preview` once.
  Turning auto-refresh off stops the timer; turning it on does nothing else.
- **Session lifecycle** (`save_to_file`, `save_as_file`, `save_file`,
  `new_file`, `open_file`, `closeEvent`, `update_title`). The user's and the
  operating system's answers are inputs (`Session.Answers`):
  - the Yes/No/Cancel reply;
  - what the file dialogs return, with `""` meaning cancelled, as in the
    source's `if file_path`;
  - whether a write succeeds;
  - what a read returns;
  - whether the preview hand-off succeeds.

Modules: `Wrappers` (Option), `Text` (Python string primitives), `Composer`,
`Editor` (state, refresh, title), `Scheduler`, `Session`.

## Behaviour worth noting

- Either attribute alone selects explicit mode: the test at app.py:294 is
  `not A and not B`. Markup with only the style tag takes the explicit path,
  gets no skeleton, and loses the script (`Composer.EveryStyleTagInjected`).
- `str.replace` rewrites *every* occurrence of a tag, not only the first
  (`Composer.ExplicitInjectsEveryTag`, `Composer.EveryStyleTagInjected`).
- `toggle_auto_refresh` only sets the flag when enabling; it neither refreshes
  nor arms the timer (`Scheduler.EnablingSchedulesNothing`).
- `new_file` clears the buffers and the binding, then calls
  `load_default_content` at app.py:393, which the class does not define. The
  method raises there, before the title update and the refresh. The model
  stops at the clear and reports status `Raised`.

## Model

| member | source | states |
|---|---|---|
| Text.Find | app.py:294 | `str.find`: a reported index is one where the pattern occurs |
| Text.FindIsFirst | app.py:294 | Ties `Text.Contains` (Python's `in`) to `find`: the index found is the lowest occurrence, and none is found exactly when the text does not contain the pattern |
| Text.ReplaceAllIsJoinSplit | app.py:316-323 | `str.replace` as scanned left to right equals joining, with the replacement, the pieces between the leftmost non-overlapping occurrences |
| Text.JoinSplit | app.py:316-323 | Gluing the pieces back with the pattern itself restores the text, so the cuts lose nothing |
| Text.SplitPiecesFree | app.py:316-323 | No piece contains the pattern, so every occurrence is a cut point and is replaced |
| Text.ReplaceAllLength | app.py:316-323 | The result grows by (replacement length − pattern length) once per occurrence counted by `str.count` |
| Text.ReplaceAllAbsent | app.py:316-323 | A text without the pattern is returned unchanged |
| Text.ReplaceAll | app.py:316-323 | `str.replace` scanned left to right: replacing a pattern by itself changes nothing, and a replacement at least as long as the pattern never shortens the text |
| Composer.Compose | app.py:287-325 | In implicit mode the document opens with the skeleton head, ends with its tail, and its length is the three buffers plus the fixed skeleton text |
| Composer.ImplicitLayout | app.py:294-312 | With neither marker present, the document is the skeleton head, the styles, the close of the style element and head with the opening of the body, the markup, the opening of the script element, the script, and the skeleton tail, each at its fixed offset |
| Composer.ExplicitInjectsEveryTag | app.py:313-323 | With either marker present, the output is the markup cut at every exact style tag, each cut followed by newline+styles; the script pass then cuts that intermediate text at every script tag |
| Composer.ExplicitLength | app.py:315-323 | In explicit mode the output adds exactly 1+‖styles‖ per style tag of the markup and 1+‖script‖ per script tag of the intermediate text |
| Composer.ExactTagMismatchDropsContent | app.py:294-323 | A marker without either exact opening tag (e.g. an extra attribute) returns the markup unchanged, whatever the styles and script |
| Composer.Explicit | app.py:294 | Either attribute alone selects explicit mode; markup holding an exact tag always selects it, so a substitution can only take place in explicit mode |
| Composer.TagCarriesMarker | app.py:294-323 | An occurrence of `<style id="custom-css">` is an occurrence of `id="custom-css"`, and likewise for the script tag |
| Composer.Inject | app.py:315-323 | The two substitution passes only add text, and markup without either exact tag comes back unchanged |
| Composer.EveryStyleTagInjected | app.py:313-319 | Markup holding the style tag twice (and no script marker) gets the styles after both tags, for any styles without the script tag, with no skeleton, and loses the script |
| Composer.ScriptTagInStylesInjected | app.py:315-323 | A script tag arriving inside the styles is followed by the script, because the second pass runs on the first pass's output |
| Editor.Refresh | app.py:327-347 | `update_preview` counts one refresh and records the composed document when the hand-off succeeds; on failure only the error is reported; nothing else changes |
| Editor.Initial | app.py:37-46 | The new window is clean, unbound, with auto-refresh on, no timer pending, and one refresh already done |
| Editor.Basename | app.py:282 | POSIX `os.path.basename`: the longest suffix without `/`, preceded by `/` unless it is the whole path |
| Editor.Title | app.py:278-285 | The title starts with the application name; when a file is bound, ` - ` and its base name follow; a modified editor's title ends in ` *`; the length fixes which parts are present |
| Scheduler.Edit | app.py:259-269 | An edit changes only its own buffer, sets modified, arms the timer when auto-refresh is on, leaves it alone otherwise, and refreshes nothing |
| Scheduler.Toggle | app.py:271-276 | Switching off disarms the timer; switching on only sets the flag; no refresh either way |
| Scheduler.Tick | app.py:40-43 | The single-shot timer fires at most once: it disarms and refreshes exactly when it was armed, records the document only after a successful hand-off, and changes nothing else |
| Scheduler.RunKeepsValid | app.py:259-276 | Over any run of events a pending timer implies auto-refresh is on and a bound path is non-empty |
| Scheduler.BurstArmsTimer | app.py:259-267 | Any non-empty burst of edits with auto-refresh on leaves one refresh pending and performs none |
| Scheduler.BurstThenSilenceRefreshesOnce | app.py:40-43 | A burst of edits followed by silence refreshes exactly once, with the document as the last edit left it; more silence adds nothing |
| Scheduler.DisabledNeverRefreshes | app.py:264-275 | With auto-refresh off, edits and elapsed windows in any order cause no refresh and leave no timer pending |
| Scheduler.EnablingSchedulesNothing | app.py:271-276 | Turning auto-refresh back on and waiting produces no refresh |
| Session.SaveToFile | app.py:452-469 | A successful write returns true, writes the composed document, binds the path and clears modified; a failed write returns false and changes nothing |
| Session.SaveAs | app.py:443-450 | Succeeds exactly when a path is chosen and the write succeeds; then the composed document is written there and the editor is bound to it and clean; otherwise nothing changes |
| Session.Save | app.py:436-469 | Succeeds exactly when a path is bound or chosen and the write succeeds; then exactly the binding and the modified flag change and the composed document is written to that path; otherwise nothing changes |
| Session.Guard | app.py:400-409 | The question stops the operation exactly when there are unsaved changes and the user cancels or answers Yes to a failing save; a Yes that saves proceeds with the saved editor and the write; otherwise it proceeds unchanged (the same guard as app.py:377-386 and 473-484) |
| Session.GuardStops | app.py:398-409 | With unsaved changes, Cancel or a Yes whose save fails leaves New, Open and close with the editor untouched and nothing written (the same guard as app.py:377-386 and 473-484) |
| Editor.Plain | app.py:425 | The text `toPlainText` returns after `setPlainText`: the same length, no no-break space, line/paragraph separator or U+FDD0/U+FDD1 frame mark, every other character kept |
| Editor.PlainIdempotent | app.py:289 | Reading the markup back a second time changes nothing more |
| Session.New | app.py:375-396 | New never completes: it is aborted exactly when the guard stops it, with nothing changed; otherwise it clears the buffers and the binding, marks the editor clean and raises before refreshing, leaving auto-refresh and the preview as they were (the model also keeps the timer, see "## Left out") |
| Session.GuardPasses | app.py:375-396 | With no unsaved changes, a No, or a Yes whose save succeeds: close completes, New clears the buffers and binding then raises, Open completes exactly when a path is chosen and read |
| Session.Close | app.py:471-486 | The window closes if and only if the guard does not stop it; when it stays open, nothing has changed |
| Session.Open | app.py:398-434 | Open completes exactly when the guard passes, a path is chosen and the read succeeds; it then holds the file's text, as the widget hands it back, as markup, empty styles and script, the opened path, a clean flag, and one more refresh of that text's document; auto-refresh is kept and a failed hand-off keeps the preview; a stopping guard changes nothing; a cancelled dialog or failed read leaves only what the guard's save did |
| Session.SaveThenOpen | app.py:416-428 | Reopening the file just saved binds the same path and gives the composed document, as the widget hands it back, as markup, with empty styles and script: the three-way split is not recovered |
| Session.ReopenedImplicitGrows | app.py:296-312 | The document of a freshly opened file without markers is strictly longer than the file, so each open/save cycle wraps another skeleton |
| Session.CommandKeepsValid | app.py:375-486 | New, Open and close keep the reachable-state invariant |
| Session.TitleAfterSave | app.py:461-463 | After a successful save the title is the application name, ` - ` and the saved file's base name, with no modified mark |

## Left out

- Qt widgets, menus, toolbars, the dark theme and the status-bar messages
  (app.py:10-31, 48-257). They are presentation only.
- The temporary file behind the preview, `QWebEngineView.load`, `Open in
  Browser` (`webbrowser.open`) and the timed `cleanup_temp_file`
  (app.py:327-373). These are I/O. A refresh is a counter plus the last
  document accepted. Whether the hand-off succeeded is an input.
- Timer durations (1000 ms, 5000 ms, 10000 ms). The timer is armed or not,
  and `Scheduler.Tick` is the quiescence window elapsing.
- File dialogs, reads and writes. They are inputs. UTF-8 encoding is not
  modelled: strings are sequences of characters.
- The `textChanged` signals fired by `clear()` and `setPlainText` inside
  `new_file` and `open_file`. Only their net effect on `is_modified` is kept,
  which the explicit `False` overrides. In app.py each of them also reaches
  `on_text_changed`, so with auto-refresh on the timer is always armed after
  the buffers are reloaded, and a completed Open is followed by a second
  refresh one quiescence window later. `Session.New` and `Session.Open`
  leave `timerArmed` as it was instead.
- What happens after `new_file` raises. The model ends the operation with
  status `Raised`. What PyQt then does with an exception escaping a slot
  (PyQt 5.5 and later abort by default) is outside the model.
- The widget's plain-text conversion for typed text. `Scheduler.Edit` takes
  the buffer as `toPlainText` returns it. Only the file text that `open_file`
  puts in with `setPlainText` passes through `Editor.Plain`.
- `os.path.basename` on Windows. The model uses the POSIX rule.
- Session.SaveToFile: a failed save is modelled as writing nothing. In
  app.py:458 `open(path, 'w')` truncates the file before `f.write`, so a
  failure after the open (I/O error, full disk, a character UTF-8 cannot
  encode) can leave the file empty or partial. The model does not track disk
  contents beyond the one complete write of a successful save; the same holds
  for the "nothing written" of `Session.GuardStops`.
- Text.Split, Text.Count: only for a non-empty separator. Python's `str.split`
  raises on an empty one. `Text.ReplaceAll` does model Python's empty-pattern
  case; the composer only ever uses the two fixed, non-empty tags.

=== FILE: composer.dfy ===
/** The document composer: `HTMLEditor.generate_html` as a pure function of
    the three buffers. Without an injection marker in the markup the buffers
    are wrapped in a fixed HTML5 skeleton; with either marker the markup is
    kept and the styles and script are spliced in after every exact opening
    tag, styles first. */
module Composer {
  import opened Text

  /** The attribute whose presence selects explicit mode (app.py:294). */
  const CssMarker: string := "id=\"custom-css\""
  const JsMarker: string := "id=\"custom-js\""

  /** The exact opening tags the substitution looks for (app.py:317, 321). */
  const CssTag: string := "<style " + CssMarker + ">"
  const JsTag: string := "<script " + JsMarker + ">"

  /** The fixed text of the implicit skeleton, around the three buffers. */
  const Head: string :=
    "<!DOCTYPE html>\n<html lang=\"en\">\n<head>\n    <meta charset=\"UTF-8\">\n"
    + "    <meta name=\"viewport\" content=\"width=device-width, initial-scale=1.0\">\n"
    + "    <title>Preview</title>\n    <style>\n"
  const AfterCss: string := "\n    </style>\n</head>\n<body>\n"
  const AfterHtml: string := "\n    <script>\n"
  const Tail: string := "\n    </script>\n</body>\n</html>"

  /** Explicit mode is selected by either marker alone. Each exact tag
      carries its marker, so markup holding a tag is always explicit: a
      substitution can only take place in explicit mode. */
  predicate Explicit(html: string): (b: bool)
    ensures Contains(html, CssTag) || Contains(html, JsTag) ==> b
  {
    TagCarriesMarker(html);
    Contains(html, CssMarker) || Contains(html, JsMarker)
  }

  /** An occurrence of an exact tag is an occurrence of its marker. */
  lemma TagCarriesMarker(html: string)
    ensures Contains(html, CssTag) ==> Contains(html, CssMarker)
    ensures Contains(html, JsTag) ==> Contains(html, JsMarker)
  {
    if Contains(html, CssTag) {
      var i :| 0 <= i <= |html| && OccursAt(html, CssTag, i);
      Middle("<style ", CssMarker, ">");
      OccursWithin(html, CssTag, CssMarker, i, 7);
    }
    if Contains(html, JsTag) {
      var i :| 0 <= i <= |html| && OccursAt(html, JsTag, i);
      Middle("<script ", JsMarker, ">");
      OccursWithin(html, JsTag, JsMarker, i, 8);
    }
  }

  function Skeleton(html: string, css: string, js: string): string {
    Head + css + AfterCss + html + AfterHtml + js + Tail
  }

  /** The styles pass, then the script pass over its result. Injection only
      adds text, and markup holding neither exact tag comes back as it was. */
  function Inject(html: string, css: string, js: string): (r: string)
    ensures |r| >= |html|
    ensures !Contains(html, CssTag) && !Contains(html, JsTag) ==> r == html
  {
    var styled := ReplaceAll(html, CssTag, CssTag + "\n" + css);
    var r := ReplaceAll(styled, JsTag, JsTag + "\n" + js);
    if Contains(html, CssTag) || Contains(html, JsTag) then r
    else
      ReplaceAllAbsent(html, CssTag, CssTag + "\n" + css);
      ReplaceAllAbsent(html, JsTag, JsTag + "\n" + js);
      r
  }

  /** `generate_html`. */
  function Compose(html: string, css: string, js: string): (r: string)
    ensures !Explicit(html) ==> |r| == |Head| + |css| + |AfterCss| + |html| + |AfterHtml| + |js| + |Tail|
    ensures !Explicit(html) ==> r[..|Head|] == Head && r[|r| - |Tail|..] == Tail
  {
    if !Explicit(html) then Skeleton(html, css, js) else Inject(html, css, js)
  }

  /** Offsets of the three buffers inside the implicit skeleton. */
  function CssAt(): nat { |Head| }
  function HtmlAt(css: string): nat { |Head| + |css| + |AfterCss| }
  function JsAt(html: string, css: string): nat { HtmlAt(css) + |html| + |AfterHtml| }

  /** Implicit mode: the document is the skeleton head, the styles, the
      close of the style element and head with the opening of the body, the
      markup, the opening of the script element, the script and the skeleton
      tail, each verbatim at its fixed offset. */
  lemma ImplicitLayout(html: string, css: string, js: string)
    requires !Explicit(html)
    ensures var r := Compose(html, css, js);
      && OccursAt(r, Head, 0)
      && OccursAt(r, css, CssAt())
      && OccursAt(r, AfterCss, CssAt() + |css|)
      && OccursAt(r, html, HtmlAt(css))
      && OccursAt(r, AfterHtml, HtmlAt(css) + |html|)
      && OccursAt(r, js, JsAt(html, css))
      && OccursAt(r, Tail, JsAt(html, css) + |js|)
      && JsAt(html, css) + |js| + |Tail| == |r|
  {
    SkeletonLayout(html, css, js);
  }

  /** The same layout, stated of the skeleton itself. */
  lemma SkeletonLayout(html: string, css: string, js: string)
    ensures var r := Skeleton(html, css, js);
      && OccursAt(r, Head, 0)
      && OccursAt(r, css, CssAt())
      && OccursAt(r, AfterCss, CssAt() + |css|)
      && OccursAt(r, html, HtmlAt(css))
      && OccursAt(r, AfterHtml, HtmlAt(css) + |html|)
      && OccursAt(r, js, JsAt(html, css))
      && OccursAt(r, Tail, JsAt(html, css) + |js|)
      && JsAt(html, css) + |js| + |Tail| == |r|
  {
    Layout(Head, css, AfterCss, html, AfterHtml, js, Tail);
  }

  /** Where each part of a seven-part concatenation sits. */
  lemma Layout(p0: string, x: string, p1: string, y: string, p2: string, z: string, p3: string)
    ensures var s := p0 + x + p1 + y + p2 + z + p3;
      var i := |p0| + |x| + |p1|;
      var j := i + |y| + |p2|;
      && OccursAt(s, p0, 0)
      && OccursAt(s, x, |p0|)
      && OccursAt(s, p1, |p0| + |x|)
      && OccursAt(s, y, i)
      && OccursAt(s, p2, i + |y|)
      && OccursAt(s, z, j)
      && OccursAt(s, p3, j + |z|)
      && j + |z| + |p3| == |s|
  {
  }

  /** Explicit mode, every occurrence: the markup is cut at each exact
      `<style id="custom-css">` (gluing the cuts back with the tag gives the
      markup again); each cut receives the tag, a newline and the styles.
      The script pass then cuts THAT text at each `<script id="custom-js">`,
      so a script tag inside the styles is injected too. */
  lemma ExplicitInjectsEveryTag(html: string, css: string, js: string)
    requires Explicit(html)
    ensures Join(Split(html, CssTag), CssTag) == html
    ensures var styled := Join(Split(html, CssTag), CssTag + "\n" + css);
      && Join(Split(styled, JsTag), JsTag) == styled
      && Compose(html, css, js) == Join(Split(styled, JsTag), JsTag + "\n" + js)
  {
    JoinSplit(html, CssTag);
    ReplaceAllIsJoinSplit(html, CssTag, CssTag + "\n" + css);
    var styled := ReplaceAll(html, CssTag, CssTag + "\n" + css);
    JoinSplit(styled, JsTag);
    ReplaceAllIsJoinSplit(styled, JsTag, JsTag + "\n" + js);
  }

  /** Explicit mode adds exactly a newline and the styles per style tag of
      the markup, and a newline and the script per script tag of the
      intermediate text. */
  lemma ExplicitLength(html: string, css: string, js: string)
    requires Explicit(html)
    ensures var styled := ReplaceAll(html, CssTag, CssTag + "\n" + css);
      |Compose(html, css, js)|
        == |html| + Count(html, CssTag) * (1 + |css|) + Count(styled, JsTag) * (1 + |js|)
  {
    var styled := ReplaceAll(html, CssTag, CssTag + "\n" + css);
    ReplaceAllLength(html, CssTag, CssTag + "\n" + css);
    ReplaceAllLength(styled, JsTag, JsTag + "\n" + js);
  }

  /** Explicit mode uses nothing but the markup and the two substitutions:
      a marker present without either exact tag (say
      `<style id="custom-css" type="text/css">`) returns the markup as is and
      drops the styles and the script. */
  lemma ExactTagMismatchDropsContent(html: string, css: string, js: string, css': string, js': string)
    requires Explicit(html) && !Contains(html, CssTag) && !Contains(html, JsTag)
    ensures Compose(html, css, js) == html == Compose(html, css', js')
  {
    ReplaceAllAbsent(html, CssTag, CssTag + "\n" + css);
    ReplaceAllAbsent(html, JsTag, JsTag + "\n" + js);
    ReplaceAllAbsent(html, CssTag, CssTag + "\n" + css');
    ReplaceAllAbsent(html, JsTag, JsTag + "\n" + js');
  }

  /** The letter `j` occurs in the script tag first at index 19, and not at all in the style tag. */
  lemma TagLetters()
    ensures JsTag[19] == 'j' && 'j' !in JsTag[..19] && 'j' !in CssTag + "\n"
  {
  }

  /** Every occurrence is injected, not only the first, and the style marker
      alone selects explicit mode: markup holding the style tag twice gets the
      styles after both tags, no skeleton, and the script is dropped. */
  lemma EveryStyleTagInjected(css: string, js: string)
    requires !Contains(css, JsTag)
    ensures var once := CssTag + "\n" + css;
      Compose(CssTag + CssTag, css, js) == once + once
  {
    var html := CssTag + CssTag;
    assert Contains(html, CssTag) by { assert OccursAt(html, CssTag, 0); }
    var once := CssTag + "\n" + css;
    ReplaceAllTwice(CssTag, once);
    OnceLacksScriptTag(css);
    TagMarks();
    assert once[0] == '<';
    Marked(once, once, JsTag);
    ReplaceAllAbsent(once + once, JsTag, JsTag + "\n" + js);
  }

  /** The style tag, a newline and styles without the script tag hold no
      script tag: `<` starts the script tag and occurs nowhere else in it,
      the style tag differs from it in its third character, and `<` occurs
      in neither the rest of the style tag nor the newline. */
  lemma OnceLacksScriptTag(css: string)
    requires !Contains(css, JsTag)
    ensures !Contains(CssTag + "\n" + css, JsTag)
  {
    TagMarks();
    var once := CssTag + "\n" + css;
    var rest := CssTag[1..] + "\n";
    Prefixed(rest, css, JsTag);
    assert once[1..] == rest + css;
    assert once[2] == CssTag[2];
    NotAtStart(once, JsTag);
  }

  /** The character facts about the two tags the proofs above use. */
  lemma TagMarks()
    ensures |CssTag| > 2 && |JsTag| > 2 && CssTag[0] == JsTag[0] == '<'
    ensures CssTag[2] != JsTag[2]
    ensures '<' !in JsTag[1..] && '<' !in CssTag[1..] + "\n"
  {
  }

  /** The script pass runs over the text the styles pass produced: a script
      tag that arrives inside the styles is followed by the script. */
  lemma ScriptTagInStylesInjected(js: string)
    ensures Compose(CssTag, JsTag, js) == CssTag + "\n" + JsTag + "\n" + js
  {
    assert Contains(CssTag, CssTag) by { assert OccursAt(CssTag, CssTag, 0); }
    var p := CssTag + "\n";
    ReplaceAllWhole(CssTag, p + JsTag);
    var s := p + JsTag;
    var rep := JsTag + "\n" + js;
    TagLetters();
    NotBefore(p, JsTag, 19);
    ReplaceAllSkips(s, JsTag, rep, |p|);
    assert s[..|p|] == p && s[|p|..] == JsTag;
    ReplaceAllWhole(JsTag, rep);
    assert Inject(CssTag, JsTag, js) == p + rep;
    Assoc(p, JsTag + "\n", js);
    Assoc(p, JsTag, "\n");
  }
}

=== FILE: editor.dfy ===
/** The editor window's state: the three buffers, the file binding, the
    modified flag, the auto-refresh flag and the single-shot quiescence
    timer. A refresh is recorded as a count of `update_preview` calls plus the
    last document the render sink accepted; the temporary file and the web
    view are not modelled. Also the window title. */
module Editor {
  import opened Wrappers
  import opened Composer

  /** Which editing surface an edit came from. */
  datatype Buffer = Markup | Styles | Script

  datatype Editor = Editor(
    html: string,
    css: string,
    js: string,
    /** `current_file`; None until the first successful save or open. */
    currentFile: Option<string>,
    /** `is_modified`. */
    modified: bool,
    /** `auto_refresh_enabled`. */
    autoRefresh: bool,
    /** The single-shot `refresh_timer` is running. */
    timerArmed: bool,
    /** Number of `update_preview` calls so far. */
    refreshes: nat,
    /** The last document handed to the render sink without error. */
    preview: Option<string>)

  /** Python truthiness of `current_file`: bound to a non-empty path. */
  predicate Bound(f: Option<string>) {
    f.Some? && f.value != ""
  }

  /** The document the buffers compose to, as rendered and as saved. */
  function Document(e: Editor): string {
    Compose(e.html, e.css, e.js)
  }

  /** The characters the widget's plain-text round trip does not keep. */
  predicate Rewritten(ch: char) {
    ch in {'\U{00A0}', '\U{2028}', '\U{2029}', '\U{FDD0}', '\U{FDD1}'}
  }

  /** What the editor widget hands back for a character put in with
      `setPlainText`: `toPlainText` turns a no-break space into a space, and
      the Unicode line and paragraph separators and the two frame marks
      U+FDD0 and U+FDD1 (which the widget takes as block breaks) into a
      newline. */
  function PlainChar(ch: char): char {
    if ch == '\U{00A0}' then ' '
    else if ch == '\U{2028}' || ch == '\U{2029}' || ch == '\U{FDD0}' || ch == '\U{FDD1}' then '\n'
    else ch
  }

  /** The text `toPlainText` returns after `setPlainText(s)`: same length,
      no no-break space, separator or frame mark left, every other character
      kept. A carriage return would be kept; the text-mode read that supplies
      `s` never yields one. */
  function Plain(s: string): (r: string)
    ensures |r| == |s|
    ensures forall i :: 0 <= i < |r| ==> !Rewritten(r[i])
    ensures forall i :: 0 <= i < |s| && !Rewritten(s[i]) ==> r[i] == s[i]
  {
    if |s| == 0 then [] else [PlainChar(s[0])] + Plain(s[1..])
  }

  /** Reading back what was read back changes nothing more. */
  lemma PlainIdempotent(s: string)
    ensures Plain(Plain(s)) == Plain(s)
  {
  }

  /** States the editor can reach: a pending timer implies auto-refresh is
      on, and a bound path is never empty. */
  predicate Valid(e: Editor) {
    && (e.timerArmed ==> e.autoRefresh)
    && (e.currentFile.Some? ==> e.currentFile.value != "")
  }

  /** `update_preview`: composes the document and hands it to the sink;
      when the hand-off fails the error is only reported. The pending
      timer, the buffers and the session are not touched. */
  function Refresh(e: Editor, sinkOk: bool): (r: Editor)
    ensures r.refreshes == e.refreshes + 1
    ensures sinkOk ==> r.preview == Some(Compose(e.html, e.css, e.js))
    ensures !sinkOk ==> r.preview == e.preview
    ensures r.(refreshes := e.refreshes, preview := e.preview) == e
  {
    e.(refreshes := e.refreshes + 1, preview := if sinkOk then Some(Document(e)) else e.preview)
  }

  /** The window as `__init__` leaves it: empty buffers, unbound, clean,
      auto-refresh on, no timer pending, one preview already requested. */
  function Initial(sinkOk: bool): (r: Editor)
    ensures Valid(r) && !r.modified && r.currentFile == None
    ensures r.autoRefresh && !r.timerArmed && r.refreshes == 1
    ensures r.html == r.css == r.js == ""
  {
    Refresh(Editor("", "", "", None, false, true, false, 0, None), sinkOk)
  }

  /** The window title `update_title` shows. */
  const AppName: string := "WYSIWYG HTML Editor"

  /** `str.rfind('/')`: the index of the last `/`, or -1. */
  function LastSlash(path: string): (r: int)
    ensures -1 <= r < |path|
    ensures r >= 0 ==> path[r] == '/'
    ensures forall i :: r < i < |path| ==> path[i] != '/'
    decreases |path|
  {
    if |path| == 0 then -1
    else if path[|path| - 1] == '/' then |path| - 1
    else LastSlash(path[..|path| - 1])
  }

  /** `os.path.basename` on POSIX: the text after the last `/`. */
  function Basename(path: string): (r: string)
    ensures '/' !in r
    ensures |r| <= |path| && path[|path| - |r|..] == r
    ensures |r| < |path| ==> path[|path| - |r| - 1] == '/'
  {
    path[LastSlash(path) + 1..]
  }

  /** `update_title`: the application name, then ` - ` and the bound
      file's base name when a file is bound, then ` *` when modified. */
  function Title(e: Editor): (r: string)
    ensures var name := if Bound(e.currentFile) then 3 + |Basename(e.currentFile.value)| else 0;
      |r| == |AppName| + name + (if e.modified then 2 else 0)
    ensures r[..|AppName|] == AppName
    ensures Bound(e.currentFile) ==>
      var base := Basename(e.currentFile.value);
      r[|AppName|..|AppName| + 3] == " - " && r[|AppName| + 3..|AppName| + 3 + |base|] == base
    ensures e.modified ==> r[|r| - 2..] == " *"
  {
    var named := if Bound(e.currentFile) then AppName + " - " + Basename(e.currentFile.value) else AppName;
    if e.modified then named + " *" else named
  }
}

=== FILE: scheduler.dfy ===
/** The refresh scheduler: edits arm the single-shot quiescence timer while
    auto-refresh is on, the toggle switches it, and the timer firing calls
    `update_preview`. Runs of events show that bursts of edits coalesce into
    one refresh and that nothing refreshes on its own while auto-refresh is
    off. */
module Scheduler {
  import opened Wrappers
  import opened Editor

  /** `on_text_changed` after the buffer `b` received the text `text`: the
      session becomes modified; with auto-refresh on the timer is stopped and
      started again, so pending refreshes coalesce into one; with it off the
      timer is left alone. No refresh happens now. */
  function Edit(e: Editor, b: Buffer, text: string): (r: Editor)
    ensures r.modified
    ensures e.autoRefresh ==> r.timerArmed
    ensures !e.autoRefresh ==> r.timerArmed == e.timerArmed
    ensures r.refreshes == e.refreshes && r.preview == e.preview
    ensures r.autoRefresh == e.autoRefresh && r.currentFile == e.currentFile
    ensures (b == Markup ==> r.html == text) && (b != Markup ==> r.html == e.html)
    ensures (b == Styles ==> r.css == text) && (b != Styles ==> r.css == e.css)
    ensures (b == Script ==> r.js == text) && (b != Script ==> r.js == e.js)
  {
    var e1 := match b
      case Markup => e.(html := text)
      case Styles => e.(css := text)
      case Script => e.(js := text);
    e1.(modified := true, timerArmed := if e.autoRefresh then true else e.timerArmed)
  }

  /** `toggle_auto_refresh(enabled)`: switching off stops the pending timer;
      switching on only sets the flag, with no refresh and no timer. */
  function Toggle(e: Editor, enabled: bool): (r: Editor)
    ensures r.autoRefresh == enabled
    ensures !enabled ==> !r.timerArmed
    ensures enabled ==> r.timerArmed == e.timerArmed
    ensures r.refreshes == e.refreshes
    ensures r.(autoRefresh := e.autoRefresh, timerArmed := e.timerArmed) == e
  {
    e.(autoRefresh := enabled, timerArmed := enabled && e.timerArmed)
  }

  /** The quiescence window elapses: a pending single-shot timer fires once,
      which disarms it and calls `update_preview`; with nothing pending,
      nothing happens. */
  function Tick(e: Editor, sinkOk: bool): (r: Editor)
    ensures !r.timerArmed
    ensures r.refreshes == e.refreshes + (if e.timerArmed then 1 else 0)
    ensures e.timerArmed && sinkOk ==> r.preview == Some(Document(e))
    ensures !sinkOk ==> r.preview == e.preview
    ensures r.(timerArmed := e.timerArmed, refreshes := e.refreshes, preview := e.preview) == e
    ensures !e.timerArmed ==> r == e
  {
    if e.timerArmed then Refresh(e.(timerArmed := false), sinkOk) else e
  }

  /** The events the scheduler reacts to: an edit of one buffer, the
      auto-refresh check box, the quiescence window elapsing, and the
      explicit Refresh command (button, menu or F5). */
  datatype Event =
    | Typed(buffer: Buffer, text: string)
    | Toggled(enabled: bool)
    | Elapsed(sinkOk: bool)
    | RefreshRequested(sinkOk: bool)

  function Step(e: Editor, ev: Event): Editor {
    match ev
    case Typed(b, text) => Edit(e, b, text)
    case Toggled(on) => Toggle(e, on)
    case Elapsed(ok) => Tick(e, ok)
    case RefreshRequested(ok) => Refresh(e, ok)
  }

  function Run(e: Editor, evs: seq<Event>): Editor
    decreases |evs|
  {
    if |evs| == 0 then e else Run(Step(e, evs[0]), evs[1..])
  }

  /** Every event keeps the reachable-state invariant. */
  lemma StepKeepsValid(e: Editor, ev: Event)
    requires Valid(e)
    ensures Valid(Step(e, ev))
  {
  }

  lemma {:induction false} RunKeepsValid(e: Editor, evs: seq<Event>)
    requires Valid(e)
    ensures Valid(Run(e, evs))
    decreases |evs|
  {
    if |evs| > 0 {
      StepKeepsValid(e, evs[0]);
      RunKeepsValid(Step(e, evs[0]), evs[1..]);
    }
  }

  predicate AllTyped(evs: seq<Event>) {
    forall i :: 0 <= i < |evs| ==> evs[i].Typed?
  }

  /** A burst of edits with auto-refresh on leaves exactly one refresh
      pending and performs none. */
  lemma {:induction false} BurstArmsTimer(e: Editor, evs: seq<Event>)
    requires e.autoRefresh && |evs| > 0 && AllTyped(evs)
    ensures var r := Run(e, evs);
      r.timerArmed && r.autoRefresh && r.modified && r.refreshes == e.refreshes
    decreases |evs|
  {
    var e1 := Step(e, evs[0]);
    if |evs| > 1 {
      assert AllTyped(evs[1..]) by {
        forall i | 0 <= i < |evs| - 1 ensures evs[1..][i].Typed? {
          assert evs[1..][i] == evs[i + 1];
        }
      }
      BurstArmsTimer(e1, evs[1..]);
    }
  }

  /** Coalescing: any non-empty burst of edits followed by silence causes
      exactly one automatic refresh, of the document as the last edit left
      it; further silence causes no more. */
  lemma {:induction false} BurstThenSilenceRefreshesOnce(e: Editor, evs: seq<Event>, ok: bool, ok': bool)
    requires e.autoRefresh && |evs| > 0 && AllTyped(evs)
    ensures var r := Run(e, evs);
      && Tick(r, ok).refreshes == e.refreshes + 1
      && (ok ==> Tick(r, ok).preview == Some(Document(r)))
      && Tick(Tick(r, ok), ok').refreshes == e.refreshes + 1
  {
    BurstArmsTimer(e, evs);
  }

  /** With auto-refresh off, edits and elapsed windows in any number and
      order cause no refresh and leave no timer pending. */
  lemma {:induction false} DisabledNeverRefreshes(e: Editor, evs: seq<Event>)
    requires Valid(e) && !e.autoRefresh
    requires forall i :: 0 <= i < |evs| ==> evs[i].Typed? || evs[i].Elapsed?
    ensures var r := Run(e, evs);
      r.refreshes == e.refreshes && !r.timerArmed && !r.autoRefresh
    decreases |evs|
  {
    if |evs| > 0 {
      var e1 := Step(e, evs[0]);
      assert Valid(e1) && !e1.autoRefresh && e1.refreshes == e.refreshes;
      forall i | 0 <= i < |evs| - 1 ensures evs[1..][i].Typed? || evs[1..][i].Elapsed? {
        assert evs[1..][i] == evs[i + 1];
      }
      DisabledNeverRefreshes(e1, evs[1..]);
    }
  }

  /** Switching auto-refresh back on refreshes nothing: the window that
      follows fires no timer until the next edit. */
  lemma EnablingSchedulesNothing(e: Editor, ok: bool)
    requires Valid(e) && !e.autoRefresh
    ensures var r := Tick(Toggle(e, true), ok);
      r.refreshes == e.refreshes && r.autoRefresh && r.preview == e.preview
  {
  }
}

=== FILE: session.dfy ===
/** The file lifecycle: Save, Save As, New, Open and closing the window.
    Everything the user or the operating system answers is an input: the
    reply to the "Save Changes" question, the paths the file dialogs return
    ("" when cancelled), whether a write succeeds, what a read returns, and
    whether the preview hand-off succeeds. A write is reported as the path and
    the composed document it puts on disk. */
module Session {
  import opened Wrappers
  import opened Composer
  import opened Editor

  /** The buttons of the "Save Changes" question. */
  datatype Reply = Yes | No | Cancel

  /** The answers an operation may consult. */
  datatype Answers = Answers(
    reply: Reply,
    /** What the Save dialog returns; "" when cancelled. */
    savePath: string,
    writeOk: bool,
    /** What the Open dialog returns; "" when cancelled. */
    openPath: string,
    /** The file's text as `f.read()` returns it in text mode (universal
        newlines have already turned every carriage return into a newline),
        or None when reading it fails. */
    content: Option<string>,
    sinkOk: bool)

  datatype Write = Write(path: string, content: string)

  /** The result of a save: the Python return value, the editor afterwards,
      and the file written, if any. */
  datatype Saved = Saved(ok: bool, editor: Editor, written: Option<Write>)

  /** How a New, Open or close request ended: `Completed` (for a close, the
      window closes), `Aborted` (nothing more happens), or `Raised` (the
      method raised an exception). */
  datatype Status = Completed | Aborted | Raised

  datatype Outcome = Outcome(editor: Editor, written: Option<Write>, status: Status)

  /** `save_to_file(path)`: writes the composed document; on success the
      editor is bound to `path` and clean, on failure nothing changes. */
  function SaveToFile(e: Editor, path: string, writeOk: bool): (r: Saved)
    ensures r.ok == writeOk
    ensures r.ok ==> r.written == Some(Write(path, Document(e)))
    ensures r.ok ==> r.editor.currentFile == Some(path) && !r.editor.modified
    ensures !r.ok ==> r.editor == e && r.written == None
    ensures r.editor.(currentFile := e.currentFile, modified := e.modified) == e
  {
    if writeOk then
      Saved(true, e.(currentFile := Some(path), modified := false), Some(Write(path, Document(e))))
    else
      Saved(false, e, None)
  }

  /** `save_as_file`: asks for a path; a cancelled dialog saves nothing.
      It succeeds exactly when a path is chosen and the write succeeds. */
  function SaveAs(e: Editor, a: Answers): (r: Saved)
    ensures r.ok <==> a.savePath != "" && a.writeOk
    ensures r.ok ==> r.written == Some(Write(a.savePath, Document(e)))
                     && r.editor == e.(currentFile := Some(a.savePath), modified := false)
    ensures !r.ok ==> r.editor == e && r.written == None
  {
    if a.savePath != "" then SaveToFile(e, a.savePath, a.writeOk) else Saved(false, e, None)
  }

  /** The path a save writes to: the bound file, else the dialog's answer. */
  function Target(e: Editor, a: Answers): string {
    if Bound(e.currentFile) then e.currentFile.value else a.savePath
  }

  /** `save_file`: saves to the bound file, or asks for a path when unbound.
      It succeeds exactly when a path is known or chosen and the write
      succeeds; it then writes the composed document to that path, binds the
      editor to it and marks it clean, touching nothing else. Otherwise it
      reports failure and changes nothing. */
  function Save(e: Editor, a: Answers): (r: Saved)
    ensures r.ok <==> Target(e, a) != "" && a.writeOk
    ensures r.ok ==> r.written == Some(Write(Target(e, a), Document(e)))
                     && r.editor == e.(currentFile := Some(Target(e, a)), modified := false)
    ensures !r.ok ==> r.editor == e && r.written == None
  {
    if Bound(e.currentFile) then SaveToFile(e, e.currentFile.value, a.writeOk) else SaveAs(e, a)
  }

  /** The question asked before New, Open or close when there are unsaved
      changes either lets the operation proceed (after a save when the answer
      is Yes) or stops it. */
  datatype Gate = Proceed(editor: Editor, written: Option<Write>) | Stop

  function Guard(e: Editor, a: Answers): (r: Gate)
    ensures r.Stop? <==> Blocks(e, a)
    ensures r.Proceed? && e.modified && a.reply == Yes ==>
      var path := Target(e, a);
      r == Proceed(e.(currentFile := Some(path), modified := false), Some(Write(path, Document(e))))
    ensures r.Proceed? && !(e.modified && a.reply == Yes) ==> r == Proceed(e, None)
  {
    if !e.modified then Proceed(e, None)
    else match a.reply
      case Cancel => Stop
      case No => Proceed(e, None)
      case Yes =>
        var s := Save(e, a);
        if s.ok then Proceed(s.editor, s.written) else Stop
  }

  /** The guard stops exactly when there are unsaved changes and the user
      either cancels or answers Yes to a save that fails. */
  predicate Blocks(e: Editor, a: Answers) {
    e.modified && (a.reply == Cancel || (a.reply == Yes && !(Target(e, a) != "" && a.writeOk)))
  }

  /** `new_file`: after the guard, clears the buffers and the binding and
      marks the editor clean, then calls `load_default_content`, which the
      class does not define, so the method raises before refreshing: the
      auto-refresh flag and the preview stay as they were. The model also
      leaves the timer as it was, although the `textChanged` signals of the
      cleared widgets arm it when auto-refresh is on. */
  function New(e: Editor, a: Answers): (r: Outcome)
    ensures r.status != Completed
    ensures r.status == Aborted <==> Blocks(e, a)
    ensures r.status == Aborted ==> r.editor == e && r.written == None
    ensures r.status == Raised ==>
      && r.editor.html == r.editor.css == r.editor.js == ""
      && r.editor.currentFile == None && !r.editor.modified
      && r.editor.refreshes == e.refreshes
      && r.editor.autoRefresh == e.autoRefresh && r.editor.timerArmed == e.timerArmed
      && r.editor.preview == e.preview
  {
    match Guard(e, a)
    case Stop => Outcome(e, None, Aborted)
    case Proceed(e1, w) =>
      Outcome(e1.(html := "", css := "", js := "", currentFile := None, modified := false), w, Raised)
  }

  /** `open_file`: after the guard, asks for a path; a cancelled dialog or a
      failed read ends the operation (any save already made stands). A read
      puts the file's text in the markup widget, which hands it back in
      `Plain` form, empties the other two, binds the file, marks it clean
      and refreshes the preview. */
  function Open(e: Editor, a: Answers): (r: Outcome)
    ensures r.status != Raised
    ensures r.status == Completed <==> !Blocks(e, a) && a.openPath != "" && a.content.Some?
    ensures Blocks(e, a) ==> r == Outcome(e, None, Aborted)
    ensures !Blocks(e, a) && r.status == Aborted ==>
      r.editor == (if e.modified && a.reply == Yes
                   then e.(currentFile := Some(Target(e, a)), modified := false) else e)
    ensures r.status == Completed ==>
      && r.editor.html == Plain(a.content.value) && r.editor.css == r.editor.js == ""
      && r.editor.currentFile == Some(a.openPath) && !r.editor.modified
      && r.editor.refreshes == e.refreshes + 1
      && r.editor.autoRefresh == e.autoRefresh
      && (a.sinkOk ==> r.editor.preview == Some(Compose(Plain(a.content.value), "", "")))
      && (!a.sinkOk ==> r.editor.preview == e.preview)
  {
    match Guard(e, a)
    case Stop => Outcome(e, None, Aborted)
    case Proceed(e1, w) =>
      if a.openPath == "" || a.content.None? then
        Outcome(e1, w, Aborted)
      else
        var loaded := e1.(html := Plain(a.content.value), css := "", js := "",
                          currentFile := Some(a.openPath), modified := false);
        Outcome(Refresh(loaded, a.sinkOk), w, Completed)
  }

  /** `closeEvent`: after the guard the close is accepted, otherwise ignored. */
  function Close(e: Editor, a: Answers): (r: Outcome)
    ensures r.status != Raised
    ensures r.status == Completed <==> !Blocks(e, a)
    ensures r.status == Aborted ==> r.editor == e && r.written == None
  {
    match Guard(e, a)
    case Stop => Outcome(e, None, Aborted)
    case Proceed(e1, w) => Outcome(e1, w, Completed)
  }

  /** The destructive commands behind the one guard. */
  datatype Command = NewCmd | OpenCmd | CloseCmd

  function Perform(e: Editor, c: Command, a: Answers): Outcome {
    match c
    case NewCmd => New(e, a)
    case OpenCmd => Open(e, a)
    case CloseCmd => Close(e, a)
  }

  /** Dirty guard, stopping side: Cancel, or Yes with a failed save, aborts
      New, Open and close with the editor exactly as it was and nothing
      written. */
  lemma GuardStops(e: Editor, c: Command, a: Answers)
    requires Blocks(e, a)
    ensures Perform(e, c, a) == Outcome(e, None, Aborted)
  {
  }

  /** Dirty guard, passing side: with no unsaved changes, a No, or a Yes
      whose save succeeds, the operation goes ahead: the window closes, New
      resets the editor (and then raises), Open shows its dialog. Whatever a
      Yes saved is reported as written. */
  lemma GuardPasses(e: Editor, c: Command, a: Answers)
    requires !Blocks(e, a)
    ensures var r := Perform(e, c, a);
      && (c == CloseCmd ==> r.status == Completed)
      && (c == NewCmd ==> r.status == Raised && r.editor.currentFile == None && !r.editor.modified
                           && r.editor.html == r.editor.css == r.editor.js == "")
      && (c == OpenCmd ==> (r.status == Completed <==> a.openPath != "" && a.content.Some?))
      && (e.modified && a.reply == Yes ==> r.written == Some(Write(Target(e, a), Document(e))))
      && (!e.modified || a.reply == No ==> r.written == None)
  {
  }

  /** Reopening what was just saved binds the same path and yields the saved
      document, as the widget hands it back, as markup, with the styles and
      script folded into it: the three-way split is not recovered. */
  lemma SaveThenOpen(e: Editor, a: Answers, b: Answers)
    requires Save(e, a).ok
    requires b.openPath == Save(e, a).written.value.path
    requires b.content == Some(Save(e, a).written.value.content)
    ensures var r := Open(Save(e, a).editor, b);
      && r.status == Completed && r.written == None
      && r.editor.html == Plain(Document(e)) && r.editor.css == r.editor.js == ""
      && r.editor.currentFile == Save(e, a).editor.currentFile
  {
  }

  /** Saving a freshly opened file in implicit mode writes a strictly longer
      text than was read: the skeleton wraps it once more on every cycle. */
  lemma ReopenedImplicitGrows(e: Editor, a: Answers)
    requires Open(e, a).status == Completed && !Explicit(Plain(a.content.value))
    ensures |Document(Open(e, a).editor)| > |a.content.value|
  {
  }

  /** Every command keeps the reachable-state invariant. */
  lemma CommandKeepsValid(e: Editor, c: Command, a: Answers)
    requires Valid(e)
    ensures Valid(Perform(e, c, a).editor)
  {
  }

  /** After a successful save the title shows the saved file's base name
      and no modified mark. */
  lemma TitleAfterSave(e: Editor, a: Answers)
    requires Save(e, a).ok
    ensures var t := Title(Save(e, a).editor);
      var base := Basename(Target(e, a));
      |t| == |AppName| + 3 + |base| && t[|AppName| + 3..] == base
  {
  }
}

=== FILE: text.dfy ===
/** The string primitives the composer relies on, with Python's semantics:
    the `in` operator on strings, `str.find`, `str.replace`, `str.split` and
    `str.join`. `ReplaceAll` is defined by a left-to-right scan, as CPython
    performs it; `Split`/`Join` give an independent description of the same
    result, and the lemmas below connect the two. */
module Text {
  import opened Wrappers

  /** `pat` occurs in `s` starting at index `i`. */
  predicate OccursAt(s: string, pat: string, i: int) {
    0 <= i && i + |pat| <= |s| && s[i..i + |pat|] == pat
  }

  /** Python's `pat in s`. */
  predicate Contains(s: string, pat: string) {
    exists i | 0 <= i <= |s| :: OccursAt(s, pat, i)
  }

  predicate StartsWith(s: string, pat: string) {
    |pat| <= |s| && s[..|pat|] == pat
  }

  /** Occurrences in a suffix are occurrences in the whole string, shifted. */
  lemma OccursInSuffix(s: string, pat: string, k: nat, j: int)
    requires k <= |s|
    ensures OccursAt(s[k..], pat, j) <==> (0 <= j && OccursAt(s, pat, j + k))
  {
    if 0 <= j && j + |pat| <= |s| - k {
      assert s[k..][j..j + |pat|] == s[j + k..j + k + |pat|];
    }
  }

  /** A string is the text before an occurrence, the occurrence, and the text after it. */
  lemma Around(s: string, pat: string, i: int)
    requires OccursAt(s, pat, i)
    ensures s == s[..i] + pat + s[i + |pat|..]
  {
    assert s == s[..i] + s[i..i + |pat|] + s[i + |pat|..];
  }

  /** Concatenation is associative. */
  lemma Assoc(a: string, b: string, c: string)
    ensures a + (b + c) == (a + b) + c
  {
  }

  /** The middle part of a three-part concatenation sits right after the first. */
  lemma Middle(a: string, b: string, c: string)
    ensures (a + b + c)[|a|..|a| + |b|] == b
  {
  }

  /** Dropping the first character of a prefix commutes with taking the prefix. */
  lemma PrefixCons(s: string, i: nat)
    requires 0 < i <= |s|
    ensures [s[0]] + s[1..][..i - 1] == s[..i] && s[1..][i - 1..] == s[i..]
  {
  }

  /** An occurrence of a part of an occurring pattern. */
  lemma OccursWithin(s: string, big: string, small: string, i: int, k: int)
    requires OccursAt(s, big, i) && OccursAt(big, small, k)
    ensures OccursAt(s, small, i + k)
  {
    forall t | 0 <= t < |small| ensures s[i + k + t] == small[t] {
      assert small[t] == big[k..k + |small|][t] == big[k + t];
      assert big[k + t] == s[i..i + |big|][k + t] == s[i + k + t];
    }
    assert s[i + k..i + k + |small|] == small;
  }

  /** Python's `s.find(pat)`: the lowest index where `pat` occurs, or None for -1. */
  function Find(s: string, pat: string): (r: Option<nat>)
    ensures r.Some? ==> OccursAt(s, pat, r.value)
    decreases |s|
  {
    if StartsWith(s, pat) then
      StartsWithAt(s, pat);
      Some(0)
    else if |s| == 0 then
      None
    else
      match Find(s[1..], pat)
      case None => None
      case Some(k) =>
        OccursInSuffix(s, pat, 1, k);
        Some(k + 1)
  }

  /** `Find` reports the first occurrence, and reports none exactly when the
      pattern does not occur. */
  lemma {:induction false} FindIsFirst(s: string, pat: string)
    ensures Find(s, pat).Some? ==> forall j :: 0 <= j < Find(s, pat).value ==> !OccursAt(s, pat, j)
    ensures Find(s, pat).None? <==> !Contains(s, pat)
    decreases |s|
  {
    StartsWithAt(s, pat);
    if StartsWith(s, pat) {
      assert OccursAt(s, pat, 0);
    } else if |s| > 0 {
      var t := s[1..];
      FindIsFirst(t, pat);
      forall j | 0 < j <= |s| ensures OccursAt(s, pat, j) <==> OccursAt(t, pat, j - 1) {
        OccursInSuffix(s, pat, 1, j - 1);
      }
      if Find(t, pat).Some? {
        assert OccursAt(s, pat, Find(s, pat).value);
      } else {
        forall j | 0 <= j <= |s| ensures !OccursAt(s, pat, j) {
          if j > 0 {
            assert !OccursAt(t, pat, j - 1);
          }
        }
      }
    }
  }

  /** Python's `s.replace(pat, rep)`: every non-overlapping occurrence of
      `pat`, found scanning left to right, is replaced by `rep`. An empty
      `pat` matches before every character and at the end. */
  function ReplaceAll(s: string, pat: string, rep: string): (r: string)
    ensures rep == pat ==> r == s
    ensures |rep| >= |pat| ==> |r| >= |s|
    decreases |s|
  {
    if |pat| == 0 then
      if |s| == 0 then rep else rep + [s[0]] + ReplaceAll(s[1..], pat, rep)
    else if StartsWith(s, pat) then
      rep + ReplaceAll(s[|pat|..], pat, rep)
    else if |s| == 0 then
      ""
    else
      [s[0]] + ReplaceAll(s[1..], pat, rep)
  }

  /** Python's `s.split(pat)` for a non-empty separator: the pieces between
      the leftmost non-overlapping occurrences of `pat`. */
  function Split(s: string, pat: string): (r: seq<string>)
    requires |pat| > 0
    ensures |r| >= 1
    decreases |s|
  {
    var f := Find(s, pat);
    if f.None? then [s] else [s[..f.value]] + Split(s[f.value + |pat|..], pat)
  }

  /** The first piece of a split ends at the first occurrence; the rest
      splits what follows the match. */
  lemma SplitAtFirst(s: string, pat: string, i: nat)
    requires |pat| > 0 && Find(s, pat) == Some(i)
    ensures Split(s, pat) == [s[..i]] + Split(s[i + |pat|..], pat)
    ensures Count(s, pat) == Count(s[i + |pat|..], pat) + 1
  {
    var rest := Split(s[i + |pat|..], pat);
    assert Split(s, pat) == [s[..i]] + rest;
  }

  /** Without an occurrence the split is the whole string. */
  lemma SplitNone(s: string, pat: string)
    requires |pat| > 0 && Find(s, pat) == None
    ensures Split(s, pat) == [s] && Count(s, pat) == 0
  {
  }

  /** Python's `sep.join(parts)`. */
  function Join(parts: seq<string>, sep: string): string
  {
    if |parts| == 0 then ""
    else if |parts| == 1 then parts[0]
    else parts[0] + sep + Join(parts[1..], sep)
  }

  /** Joining a non-empty tail after a first piece puts one separator between them. */
  lemma JoinCons(a: string, rest: seq<string>, sep: string)
    requires |rest| >= 1
    ensures Join([a] + rest, sep) == a + sep + Join(rest, sep)
  {
    assert ([a] + rest)[1..] == rest;
  }

  /** Python's `s.count(pat)` for a non-empty pattern. */
  function Count(s: string, pat: string): nat
    requires |pat| > 0
  {
    |Split(s, pat)| - 1
  }

  /** Splitting and joining with the same separator gives the string back. */
  lemma {:induction false} JoinSplit(s: string, pat: string)
    requires |pat| > 0
    ensures Join(Split(s, pat), pat) == s
    decreases |s|
  {
    var f := Find(s, pat);
    if f.Some? {
      var i := f.value;
      var tail := s[i + |pat|..];
      JoinSplit(tail, pat);
      JoinCons(s[..i], Split(tail, pat), pat);
      Around(s, pat, i);
    }
  }

  /** The text before the first occurrence does not contain the pattern. */
  lemma HeadFree(s: string, pat: string, i: nat)
    requires |pat| > 0 && Find(s, pat) == Some(i)
    ensures !Contains(s[..i], pat)
  {
    FindIsFirst(s, pat);
    var head := s[..i];
    forall j | OccursAt(head, pat, j) ensures false {
      assert head[j..j + |pat|] == s[j..j + |pat|];
      assert OccursAt(s, pat, j);
    }
  }

  /** No piece of a split contains the separator. */
  lemma {:induction false} SplitPiecesFree(s: string, pat: string)
    requires |pat| > 0
    ensures forall k :: 0 <= k < |Split(s, pat)| ==> !Contains(Split(s, pat)[k], pat)
    decreases |s|
  {
    FindIsFirst(s, pat);
    match Find(s, pat)
    case None =>
      SplitNone(s, pat);
    case Some(i) =>
      var tail := s[i + |pat|..];
      var rest := Split(tail, pat);
      SplitPiecesFree(tail, pat);
      HeadFree(s, pat, i);
      SplitAtFirst(s, pat, i);
      var parts := Split(s, pat);
      forall k | 0 <= k < |parts| ensures !Contains(parts[k], pat) {
        if k > 0 {
          assert parts[k] == rest[k - 1];
        }
      }
  }

  /** `StartsWith` is an occurrence at index 0. */
  lemma StartsWithAt(s: string, pat: string)
    ensures StartsWith(s, pat) <==> OccursAt(s, pat, 0)
  {
    if |pat| <= |s| {
      assert s[..|pat|] == s[0..|pat|];
    }
  }

  /** Where the pattern does not start, the scan copies one character. */
  lemma ReplaceAllCopies(s: string, pat: string, rep: string)
    requires |pat| > 0 && |s| > 0 && !OccursAt(s, pat, 0)
    ensures ReplaceAll(s, pat, rep) == [s[0]] + ReplaceAll(s[1..], pat, rep)
  {
    StartsWithAt(s, pat);
  }

  /** Where the pattern starts, the scan emits the replacement and skips the match. */
  lemma ReplaceAllReplaces(s: string, pat: string, rep: string)
    requires |pat| > 0 && OccursAt(s, pat, 0)
    ensures ReplaceAll(s, pat, rep) == rep + ReplaceAll(s[|pat|..], pat, rep)
  {
    StartsWithAt(s, pat);
  }

  /** The scan copies a prefix in which `pat` does not start anywhere. */
  lemma {:induction false} ReplaceAllSkips(s: string, pat: string, rep: string, i: nat)
    requires |pat| > 0 && i <= |s|
    requires forall j :: 0 <= j < i ==> !OccursAt(s, pat, j)
    ensures ReplaceAll(s, pat, rep) == s[..i] + ReplaceAll(s[i..], pat, rep)
    decreases i
  {
    if i > 0 {
      ReplaceAllCopies(s, pat, rep);
      var t := s[1..];
      forall j | 0 <= j < i - 1 ensures !OccursAt(t, pat, j) {
        OccursInSuffix(s, pat, 1, j);
      }
      ReplaceAllSkips(t, pat, rep, i - 1);
      PrefixCons(s, i);
      Assoc([s[0]], t[..i - 1], ReplaceAll(s[i..], pat, rep));
    }
  }

  /** Up to the first occurrence the scan copies; there it emits the
      replacement and continues after the match. */
  lemma ReplaceAllAtFirst(s: string, pat: string, rep: string, i: nat)
    requires |pat| > 0 && Find(s, pat) == Some(i)
    ensures ReplaceAll(s, pat, rep) == s[..i] + (rep + ReplaceAll(s[i + |pat|..], pat, rep))
  {
    FindIsFirst(s, pat);
    ReplaceAllSkips(s, pat, rep, i);
    var u := s[i..];
    OccursInSuffix(s, pat, i, 0);
    ReplaceAllReplaces(u, pat, rep);
    assert u[|pat|..] == s[i + |pat|..];
  }

  /** Without an occurrence the scan copies the whole string. */
  lemma ReplaceAllNone(s: string, pat: string, rep: string)
    requires |pat| > 0 && Find(s, pat) == None
    ensures ReplaceAll(s, pat, rep) == s
  {
    FindIsFirst(s, pat);
    ReplaceAllSkips(s, pat, rep, |s|);
    assert s[|s|..] == "";
    assert s[..|s|] == s;
  }

  /** Python's identity `s.replace(p, r) == r.join(s.split(p))`: the scan
      agrees with the split-and-join description. */
  lemma {:induction false} ReplaceAllIsJoinSplit(s: string, pat: string, rep: string)
    requires |pat| > 0
    ensures ReplaceAll(s, pat, rep) == Join(Split(s, pat), rep)
    decreases |s|
  {
    match Find(s, pat)
    case None =>
      ReplaceAllNone(s, pat, rep);
    case Some(i) =>
      var head, tail := s[..i], s[i + |pat|..];
      var rest := Split(tail, pat);
      SplitAtFirst(s, pat, i);
      ReplaceAllAtFirst(s, pat, rep, i);
      ReplaceAllIsJoinSplit(tail, pat, rep);
      JoinCons(head, rest, rep);
      Assoc(head, rep, Join(rest, rep));
  }

  /** A string without the pattern is left unchanged. */
  lemma ReplaceAllAbsent(s: string, pat: string, rep: string)
    requires |pat| > 0 && !Contains(s, pat)
    ensures ReplaceAll(s, pat, rep) == s
  {
    FindIsFirst(s, pat);
    ReplaceAllNone(s, pat, rep);
  }

  /** The result's length grows by the replacement's extra length once per
      occurrence `str.count` reports. */
  lemma {:induction false} ReplaceAllLength(s: string, pat: string, rep: string)
    requires |pat| > 0
    ensures |ReplaceAll(s, pat, rep)| == |s| + Count(s, pat) * (|rep| - |pat|)
    decreases |s|
  {
    match Find(s, pat)
    case None =>
      ReplaceAllNone(s, pat, rep);
      SplitNone(s, pat);
      NoneMore(|ReplaceAll(s, pat, rep)|, |s|, Count(s, pat), |rep| - |pat|);
    case Some(i) =>
      var tail := s[i + |pat|..];
      ReplaceAllLength(tail, pat, rep);
      LengthStep(s, pat, rep, i);
  }

  /** One replaced occurrence, given the length law for what follows it. */
  lemma LengthStep(s: string, pat: string, rep: string, i: nat)
    requires |pat| > 0 && Find(s, pat) == Some(i)
    requires var tail := s[i + |pat|..];
      |ReplaceAll(tail, pat, rep)| == |tail| + Count(tail, pat) * (|rep| - |pat|)
    ensures |ReplaceAll(s, pat, rep)| == |s| + Count(s, pat) * (|rep| - |pat|)
  {
    var head, tail := s[..i], s[i + |pat|..];
    SplitAtFirst(s, pat, i);
    ReplaceAllAtFirst(s, pat, rep, i);
    OneMore(|ReplaceAll(s, pat, rep)|, |s|, |head|, |tail|, |pat|, |rep|,
            |ReplaceAll(tail, pat, rep)|, Count(tail, pat), Count(s, pat));
  }

  /** The length arithmetic of one step: a head of length `h` and the
      replacement (length `q`) in place of the pattern (length `p`), then the
      rest, which holds one occurrence fewer. */
  lemma OneMore(r: int, n: int, h: int, t: int, p: int, q: int, rt: int, c: int, c': int)
    requires r == h + q + rt && n == h + p + t
    requires rt == t + c * (q - p) && c' == c + 1
    ensures r == n + c' * (q - p)
  {
  }

  /** No occurrence, no change in length. */
  lemma NoneMore(r: int, n: int, c: int, d: int)
    requires r == n && c == 0
    ensures r == n + c * d
  {
  }

  /** A string made of two copies of the pattern is rewritten into two copies of the replacement. */
  lemma ReplaceAllTwice(pat: string, rep: string)
    requires |pat| > 0
    ensures ReplaceAll(pat + pat, pat, rep) == rep + rep
  {
    var s := pat + pat;
    assert OccursAt(s, pat, 0);
    ReplaceAllReplaces(s, pat, rep);
    assert s[|pat|..] == pat;
    assert OccursAt(pat, pat, 0);
    ReplaceAllReplaces(pat, pat, rep);
    assert pat[|pat|..] == "";
  }

  /** A string equal to the pattern is rewritten into the replacement. */
  lemma ReplaceAllWhole(pat: string, rep: string)
    requires |pat| > 0
    ensures ReplaceAll(pat, pat, rep) == rep
  {
    assert OccursAt(pat, pat, 0);
    ReplaceAllReplaces(pat, pat, rep);
    assert pat[|pat|..] == "";
  }

  /** A text whose first part lacks the pattern's first character contains
      the pattern only if its second part does. */
  lemma Prefixed(p: string, q: string, pat: string)
    requires |pat| > 0 && pat[0] !in p && !Contains(q, pat)
    ensures !Contains(p + q, pat)
  {
    var s := p + q;
    forall j | 0 <= j <= |s| ensures !OccursAt(s, pat, j) {
      if j < |p| {
        assert s[j] == p[j];
      } else {
        OccursInSuffix(s, pat, |p|, j - |p|);
        assert s[|p|..] == q;
      }
    }
  }

  /** No occurrence straddles a point where the pattern's first character
      stands, if that character occurs nowhere else in the pattern. */
  lemma Marked(u: string, v: string, pat: string)
    requires |pat| > 0 && |v| > 0 && v[0] == pat[0] && pat[0] !in pat[1..]
    requires !Contains(u, pat) && !Contains(v, pat)
    ensures !Contains(u + v, pat)
  {
    var s := u + v;
    forall j | 0 <= j <= |s| ensures !OccursAt(s, pat, j) {
      if j + |pat| <= |u| {
        assert s[j..j + |pat|] == u[j..j + |pat|];
        assert !OccursAt(u, pat, j);
      } else if j < |u| {
        assert s[|u|] == v[0];
        Straddle(s, pat, j, |u| - j);
      } else {
        OccursInSuffix(s, pat, |u|, j - |u|);
        assert s[|u|..] == v;
        assert !OccursAt(v, pat, j - |u|);
      }
    }
  }

  /** An occurrence at `j` puts the pattern's `k`-th character at `j + k`. */
  lemma Straddle(s: string, pat: string, j: int, k: int)
    requires 0 < k < |pat| && pat[0] !in pat[1..] && 0 <= j && j + k < |s| && s[j + k] == pat[0]
    ensures !OccursAt(s, pat, j)
  {
  }

  /** A text without an occurrence at its start, whose tail lacks the
      pattern, lacks the pattern. */
  lemma NotAtStart(s: string, pat: string)
    requires |s| > 0 && !OccursAt(s, pat, 0) && !Contains(s[1..], pat)
    ensures !Contains(s, pat)
  {
    forall j | 0 < j <= |s| ensures !OccursAt(s, pat, j) {
      OccursInSuffix(s, pat, 1, j - 1);
    }
  }

  /** If the pattern's character at `k` is neither in `p` nor earlier in the
      pattern, then in `p + pat` the pattern starts nowhere inside `p`. */
  lemma NotBefore(p: string, pat: string, k: nat)
    requires k < |pat| && pat[k] !in p && pat[k] !in pat[..k]
    ensures forall j :: 0 <= j < |p| ==> !OccursAt(p + pat, pat, j)
  {
  }
}

=== FILE: wrappers.dfy ===
/** Optional values, used for the editor's file binding, for `str.find`'s
    "not found" and for a read that fails. */
module Wrappers {

  datatype Option<+T> = None | Some(value: T)
}
